=== FILE: README.md ===
# Seata transaction coordinator core and resource-manager registration agent, in Dafny

This project models two pieces of sequential decision logic from Seata, a
distributed-transaction framework, and proves properties about them.

1. **The coordinator's branch registry** (`AbstractCore`). `branchRegister`
   attaches a branch session to a global session. `branchReport` records the
   status a participant reports for one of its branches. `branchCommit` and
   `branchRollback` build the phase-two directive for a branch and send it.
   The model is a pure state machine over a `Store`, which holds the global
   sessions by xid and an abstract row-lock table. Each operation returns a
   `Step`: the store after the call plus either the result or a typed
   `TxError`. The per-transaction exclusive section (`SessionHolder.lockAndExecute`)
   becomes one atomic transition.
2. **The resource manager's registration agent** (`RmRpcClient`). It
   computes the merged resource key. It records channels and re-registers
   after a successful handshake, and it broadcasts new resources to every
   connected server. It evicts channels that are not writable, and it has an
   idempotent init/destroy flag. Transport sends come back as emitted `Send`
   messages. Their outcomes are parameters.

Modules:

- `Wrappers` holds `Option` and `Result`.
- `Sessions` holds global and branch sessions, statuses, error codes and branch lookup.
- `Locks` is the row-lock table: all-or-nothing acquire and per-branch release.
- `Coordinator` holds `branchRegister`, `branchReport`, the lock hooks and the store invariant.
- `Dispatch` holds branch commit and rollback, plus the base coordinator's default extension points.
- `ResourceKeys` holds the merged resource key and its inverse, `Split`.
- `RmAgent` holds the registration agent.

Lock hooks: the base coordinator's `branchSessionLock` and `branchSessionUnlock`
do nothing. A row-locking coordinator overrides them. `LockPolicy` chooses
between the two. With `RowLocks`, a branch takes all its rows or none. A row
already held by the same global transaction stays with its earlier holder. A
row held by another transaction means denial, with code `LockKeyConflict`. The
compensating unlock releases the rows the new branch owns.

Behaviour of the code that the model keeps as written:

- `branchRegister` registers the root lifecycle listener on the session
  before the lock hook runs. A registration that fails at the lock or at the
  attach therefore still leaves that flag set. Only the three session checks
  fail with the store left exactly as it was. Every failure, though, leaves
  the branch lists unchanged. In a well-formed store and with a fresh branch
  id, a lock denial or an unchecked storage failure also leaves the lock
  table unchanged.
- `branchRegister` compensates only an unchecked exception from storing the
  branch. A checked transaction exception from storing (outcome
  `StoreRejected`, error code `FailedStore`) skips the unlock hook and
  propagates as it is, so a row-locking coordinator keeps the rows of a
  branch that was never attached (`RejectedStoreLeaksLocks`).
- `onRegisterMsgSuccess` always records the channel. However, the
  re-registration it may send goes through `sendRegisterMessage`. If that send
  finds the channel not writable, the channel just recorded is evicted again.
- When the original request carried resource ids but no resources are
  managed any more, the merged key is absent. The two differ, so a
  re-registration with absent resource ids is sent.
- `branchReport` ignores the reported branch type and application data.
- `branchCommit`/`branchRollback` wrap only I/O failures and timeouts.
  Any other (unchecked) transport error passes through unwrapped. The model
  keeps this as `Raw`.
- The merged key follows the iteration order of the resource manager's
  key set. The model takes that order as the given sequence of ids.

## Model

| member | source | states |
|---|---|---|
| `Coordinator.BranchRegister` | seata-develop/server/src/main/java/io/seata/server/coordinator/AbstractCore.java:80-106 | the error is NotExist iff the xid has no session, NotActive iff the session is inactive (checked before status), StatusInvalid iff active but not Begin, LockKeyConflict iff the lock hook denies, FailedToAddBranch iff storing fails with an unchecked exception, FailedStore iff storing rejects with a checked one; the three session checks leave the store unchanged; no failure adds a branch; a lock denial leaves the lock table as it was; on success the id returned is the new branch's, the session's branches are the old ones plus that branch, and the lock table is the one the lock hook produced (the branch holds its rows); a checked rejection leaves that same table; other sessions are untouched |
| `Coordinator.LockAndAttach` | seata-develop/server/src/main/java/io/seata/server/coordinator/AbstractCore.java:86-104 | after the checks passed: LockKeyConflict iff the lock hook denies, FailedToAddBranch iff storing fails unchecked, FailedStore iff storing rejects checked, success otherwise; any failure leaves every branch list as it was with only the root listener registered; a denial leaves the lock table alone; success and a checked rejection both leave the table the lock hook produced; success appends exactly the new branch and returns its id |
| `Coordinator.RejectedStoreLeaksLocks` | seata-develop/server/src/main/java/io/seata/server/coordinator/AbstractCore.java:90-99 | when storing rejects with a checked exception, a row-locking coordinator ends with the session's branches unchanged yet a fresh requested row held by the unattached branch, so the lock table differs from before |
| `Coordinator.StatusCheck` | seata-develop/server/src/main/java/io/seata/server/coordinator/AbstractCore.java:108-119 | registration is allowed exactly for an active session in Begin; an inactive session is reported NotActive whatever its status, an active non-Begin one StatusInvalid |
| `Coordinator.BranchLock` | seata-develop/server/src/main/java/io/seata/server/coordinator/AbstractCore.java:121-123 | the default hook grants without touching the table; a row-locking hook fails with LockKeyConflict exactly when another transaction holds a requested row |
| `Coordinator.BranchUnlock` | seata-develop/server/src/main/java/io/seata/server/coordinator/AbstractCore.java:125-127 | the default hook changes nothing; a row-locking hook removes every row owned by the branch, adds none, and keeps every other row with its holder |
| `Coordinator.FailedAttachLeaksNoLock` | seata-develop/server/src/main/java/io/seata/server/coordinator/AbstractCore.java:90-99 | when attaching fails after the lock hook succeeded, the compensating unlock returns the lock table to its state before the call, for a fresh branch id in a well-formed store |
| `Coordinator.RegisterPreservesValid` | seata-develop/server/src/main/java/io/seata/server/coordinator/AbstractCore.java:83-104 | with a fresh branch id and no checked storage rejection, registration keeps sessions under their own xid, branch ids unique per session, and every row lock owned by an existing branch |
| `Coordinator.BranchReport` | seata-develop/server/src/main/java/io/seata/server/coordinator/AbstractCore.java:140-155 | fails with GlobalTransactionNotExist iff the session is missing and BranchTransactionNotExist iff the branch id is absent, in both cases with the store unchanged, and succeeds exactly when the session exists and has a branch with that id; the reported session changes only in its listener flag and branch list; on success only the branch the lookup finds (the first with that id) changes, and only in its status, which becomes the reported one; and the lock table and other sessions are untouched |
| `Coordinator.ReportPreservesValid` | seata-develop/server/src/main/java/io/seata/server/coordinator/AbstractCore.java:142-149 | reporting keeps the store well formed |
| `Coordinator.RegisteredBranchIsReportable` | seata-develop/server/src/main/java/io/seata/server/coordinator/AbstractCore.java:142-149 | a report under the fresh id a successful registration returned succeeds and sets the reported status on that branch, the last one of the session |
| `Coordinator.FirstBranchScenario` | seata-develop/server/src/main/java/io/seata/server/coordinator/AbstractCore.java:80-105 | registering into T1 (Begin, no branches) returns the generated id 1 and T1's branch list is exactly that branch |
| `Coordinator.RejectionScenarios` | seata-develop/server/src/main/java/io/seata/server/coordinator/AbstractCore.java:108-147 | a Committing T1 rejects registration with StatusInvalid; a report for branch 99 that T1 lacks fails with BranchTransactionNotExist |
| `Sessions.FindBranch` | seata-develop/server/src/main/java/io/seata/server/coordinator/AbstractCore.java:143-147 | finds nothing exactly when no branch has the id, otherwise the first branch in attachment order with that id |
| `Locks.Acquire` | seata-develop/server/src/main/java/io/seata/server/coordinator/AbstractCore.java:90 | fails exactly when a requested row is held by another transaction; on success every requested row belongs to the transaction, earlier holders keep their rows and only new rows go to the branch |
| `Locks.Release` | seata-develop/server/src/main/java/io/seata/server/coordinator/AbstractCore.java:95 | removes every row of the branch and keeps every other row with its holder |
| `Locks.ReleaseIdempotent` | seata-develop/server/src/main/java/io/seata/server/coordinator/AbstractCore.java:95 | releasing twice equals releasing once |
| `Locks.ReleaseUndoesAcquire` | seata-develop/server/src/main/java/io/seata/server/coordinator/AbstractCore.java:90-95 | release after a successful acquire by an owner that held nothing restores the original table |
| `Dispatch.BranchDispatch` | seata-develop/server/src/main/java/io/seata/server/coordinator/AbstractCore.java:171-228 | the directive carries the branch's xid, branchId, resourceId, applicationData and branchType and is addressed to its resource and client; success iff a reply came, with its status; I/O or timeout gives the phase's typed send failure; only unchecked errors pass through raw, as the very error the transport raised |
| `Dispatch.BranchCommit` | seata-develop/server/src/main/java/io/seata/server/coordinator/AbstractCore.java:171-204 | commit directive built from the branch's five fields; a reply yields its branch status; I/O or timeout yields FailedToSendBranchCommitRequest |
| `Dispatch.BranchRollback` | seata-develop/server/src/main/java/io/seata/server/coordinator/AbstractCore.java:207-228 | rollback directive built from the branch's five fields; a reply yields its branch status; I/O or timeout yields FailedToSendBranchRollbackRequest |
| `Dispatch.TransportFailuresAreTyped` | seata-develop/server/src/main/java/io/seata/server/coordinator/AbstractCore.java:182-186 | an I/O failure or timeout never escapes raw: commit and rollback both raise their typed code for the same transaction and branch |
| `Dispatch.CommitRollbackSymmetric` | seata-develop/server/src/main/java/io/seata/server/coordinator/AbstractCore.java:171-228 | commit and rollback directives differ only in phase, go to the same participant, and agree on the reply |
| `Dispatch.LockQueryGrants` | seata-develop/server/src/main/java/io/seata/server/coordinator/AbstractCore.java:157-161 | the default lock query always grants |
| `Dispatch.GlobalDefaultsResolve` | seata-develop/server/src/main/java/io/seata/server/coordinator/AbstractCore.java:241-259 | default global commit and rollback report resolved, independent of the retrying flag |
| `ResourceKeys.MergedResourceKeys` | seata-develop/core/src/main/java/io/seata/core/rpc/netty/RmRpcClient.java:250-267 | absent exactly when no resource is managed; otherwise the ids joined in iteration order with the separator (`Join`, whose inverse is `Split`); equal to the recursive definition `Merged` |
| `ResourceKeys.JoinSnoc` | seata-develop/core/src/main/java/io/seata/core/rpc/netty/RmRpcClient.java:256-263 | appending one more id adds a separator and the id, and the first id is appended bare |
| `ResourceKeys.SplitJoin` | seata-develop/core/src/main/java/io/seata/core/rpc/netty/RmRpcClient.java:254-264 | splitting the merged key of separator-free ids at the separator gives back the ids in order |
| `ResourceKeys.JoinSplit` | seata-develop/core/src/main/java/io/seata/core/rpc/netty/RmRpcClient.java:254-264 | joining the pieces of any split string gives that string back |
| `ResourceKeys.MergedShape` | seata-develop/core/src/main/java/io/seata/core/rpc/netty/RmRpcClient.java:250-267 | no ids gives no key; one id gives that id; otherwise the key starts with the first id and ends with the last (no separator before or after) |
| `ResourceKeys.JoinSuffix` | seata-develop/core/src/main/java/io/seata/core/rpc/netty/RmRpcClient.java:256-263 | the merged key ends with the last id |
| `ResourceKeys.TwoResourcesScenario` | seata-develop/core/src/main/java/io/seata/core/rpc/netty/RmRpcClient.java:250-267 | resources db1 and db2 merge to "db1,db2" |
| `RmAgent.GetInstance` | seata-develop/core/src/main/java/io/seata/core/rpc/netty/RmRpcClient.java:82-113 | returns the object in the slot, updated in place with the given application id and group and keeping its channels and flag; with an empty slot, constructs a new object with no channels, not initialized, and puts it in the slot; no other object changes |
| `RmAgent.Init` | seata-develop/core/src/main/java/io/seata/core/rpc/netty/RmRpcClient.java:146-152 | on one shared agent object: setup runs exactly when its flag was clear; afterwards that object's flag is set, and the slot and every other object are unchanged |
| `RmAgent.Destroy` | seata-develop/core/src/main/java/io/seata/core/rpc/netty/RmRpcClient.java:155-159 | clears the flag of the object being destroyed and empties the instance slot; other objects are unchanged |
| `RmAgent.InitDestroyCycle` | seata-develop/core/src/main/java/io/seata/core/rpc/netty/RmRpcClient.java:146-159 | getInstance, init, getInstance, init returns the same object and the second init sets up nothing; with destroy before the second getInstance, a new object is returned and its init sets up again |
| `RmAgent.InitIsIdempotent` | seata-develop/core/src/main/java/io/seata/core/rpc/netty/RmRpcClient.java:146-152 | a second init of the same object changes nothing and does not set up |
| `RmAgent.PoolKeyFor` | seata-develop/core/src/main/java/io/seata/core/rpc/netty/RmRpcClient.java:162-172 | the RM pool key for a server carries a registration with the agent's application id and group and the current merged key, absent iff no resources |
| `RmAgent.OnRegisterMsgSuccess` | seata-develop/core/src/main/java/io/seata/core/rpc/netty/RmRpcClient.java:181-195 | at most one send; exactly one iff the original resource ids were present and differ from the current merged key, and it carries that key to the same server and channel; the channel is recorded for its server, and removed again only if that re-send found it not writable |
| `RmAgent.OnRegisterMsgFail` | seata-develop/core/src/main/java/io/seata/core/rpc/netty/RmRpcClient.java:198-205 | always fails, naming the channel, and yields no agent state with the channel recorded |
| `RmAgent.ReleaseChannel` | seata-develop/core/src/main/java/io/seata/core/rpc/netty/RmRpcClient.java:238 | only the given server's entry can go, and it goes exactly when it holds that channel; other entries stay unchanged |
| `RmAgent.SendRegisterMessage` | seata-develop/core/src/main/java/io/seata/core/rpc/netty/RmRpcClient.java:231-248 | emits one request {applicationId, group, resourceId} on the channel; the registry changes only on not-writable with a known server address, by releasing that channel; other errors and timeouts leave it unchanged |
| `RmAgent.RegisterResource` | seata-develop/core/src/main/java/io/seata/core/rpc/netty/RmRpcClient.java:214-229 | with no channel: one reconnect for the service group, no send, no change; otherwise no reconnect and exactly one registration carrying the resource id to each registered server on its channel, and afterwards only the channels whose send was not writable are gone |
| `RmAgent.FreshHandshakeSendsNothing` | seata-develop/core/src/main/java/io/seata/core/rpc/netty/RmRpcClient.java:187-193 | a handshake built from the current resources triggers no re-registration and leaves the channel recorded |
| `RmAgent.StaleHandshakeResends` | seata-develop/core/src/main/java/io/seata/core/rpc/netty/RmRpcClient.java:187-193 | if resources changed after a non-empty handshake was built, the one re-registration carries the new merged key |
| `RmAgent.AddedResourceScenario` | seata-develop/core/src/main/java/io/seata/core/rpc/netty/RmRpcClient.java:187-193 | original ids "db1", current resources db1 and db2: exactly one re-registration carrying "db1,db2" |

## Left out

- Concurrency: `SessionHolder.lockAndExecute` is one atomic step. The `synchronized` block around the channel map, the double-checked singleton construction and the `AtomicBoolean` compare-and-set are not modelled, because the model is sequential.
- Transport: `sendSyncRequest` and `sendAsyncRequestWithoutResponse`, the thread pool and `NettyClientConfig` are out of scope. Each send's outcome is a parameter.
- Session storage: `SessionHolder`, the root session manager and the listeners it drives are out of scope. A lookup with or without branches is the same map lookup. Listener registration is a boolean flag. Storing a new branch is an outcome parameter.
- Coordinator.RegisterPreservesValid: does not cover a checked storage rejection, because then the rows of a branch that was never attached stay locked and the lock table no longer belongs only to existing branches (see `RejectedStoreLeaksLocks`).
- Coordinator.BranchRegister: the checked exception from storing keeps its own code and message in the source; the model gives it the single code `FailedStore`.
- Channel manager: `registerChannel`, `releaseChannel` and `reconnect` are not part of this model. Registering a channel is modelled as an unconditional put into the server-to-channel map, releasing as removal of the entry only when it holds that same channel, and reconnecting as an emitted request for the service group.
- Coordinator.BranchReport: assumes storing the status change succeeds, because the repository listener that could fail is not part of this model.
- Branch ids come from an id generator outside this model, so they are a parameter. Freshness is assumed only where a lemma needs it. Java's `long` width is not modelled.
- Lock keys: parsing the lock-key string into rows belongs to the lock manager. A branch keeps its rows as a set. Concrete lock-manager strategies are replaced by the abstract table in `Locks`.
- `begin`, `commit`, `rollback`, `getStatus`, `globalReport` and `doGlobalReport` return null or do nothing, so they carry no logic to model. `getHandleBranchType` is abstract.
- RmAgent.OnRegisterMsgSuccess, RmAgent.SendRegisterMessage and RmAgent.RegisterResource act on the state of one agent object taken as a value; storing the result back into that object among `Agents` is a plain sequence update and is not a separate member.
- RmAgent.Init: the underlying setup of the superclass (starting the channel manager) is reported only as a boolean. RmAgent.Destroy: the superclass tear-down of connections is not modelled, and the channel registry is left as it was.
- The managed-resource map of the resource manager is external. Its key set comes in as a sequence of ids in iteration order, so the setters (`setResourceManager`, `setApplicationId`, `setTransactionServiceGroup`) have no separate model.
- `registerResource` does not use `resourceGroupId`. Any runtime exception in `sendRegisterMessage` other than the framework error and the timeout is not modelled.
- `DBKEYS_SPLIT_CHAR` is defined in a constants class that is not part of this model. It is taken to be `,`.
- Logging, including every log message, is left out.

=== FILE: coordinator.dfy ===
/** The coordinator's branch registry: attaching a branch to a global
    transaction (`branchRegister`) and recording a branch's reported status
    (`branchReport`). The per-transaction exclusive section the repository
    runs these in is one atomic transition here. */
module Coordinator {
  import opened Wrappers
  import opened Sessions
  import opened Locks

  /** Everything the registry reads and writes: global sessions by xid and
      the row-lock table. */
  datatype Store = Store(sessions: map<Xid, GlobalSession>, locks: LockTable)

  /** The store after a call and what the call returned or raised. A failed
      call still reports its store, because some steps (registering the
      root listener) happen before the failure. */
  datatype Step<+T> = Step(store: Store, result: Result<T, TxError>)

  /** Whether this coordinator locks rows: the base coordinator's lock and
      unlock hooks do nothing; a row-locking coordinator overrides them. */
  datatype LockPolicy = NoRowLocks | RowLocks

  /** What the session repository does when the new branch is stored: it
      succeeds, fails with an unchecked exception (which registration
      catches and compensates), or rejects it with a checked transaction
      exception (code FailedStore), which registration does not catch. */
  datatype StoreOutcome = Stored | StoreFailed | StoreRejected

  datatype RegisterRequest = RegisterRequest(
    branchType: BranchType,
    resourceId: string,
    clientId: string,
    xid: Xid,
    applicationData: Option<string>,
    lockKeys: set<RowKey>)

  datatype ReportRequest = ReportRequest(
    branchType: BranchType,
    xid: Xid,
    branchId: int,
    status: BranchStatus,
    applicationData: Option<string>)

  /** A session filed under `x`: it carries that xid, its branches belong to
      it and their ids are distinct. */
  ghost predicate SessionOk(x: Xid, g: GlobalSession) {
    && g.xid == x
    && UniqueBranchIds(g.branches)
    && (forall i :: 0 <= i < |g.branches| ==> g.branches[i].xid == x)
  }

  /** Every row lock is owned by a branch that exists. */
  ghost predicate LockOwnersExist(sessions: map<Xid, GlobalSession>, locks: LockTable) {
    forall k :: k in locks ==>
      locks[k].xid in sessions && HasBranch(sessions[locks[k].xid].branches, locks[k].branchId)
  }

  /** A well-formed store. */
  ghost predicate Valid(st: Store) {
    && (forall x :: x in st.sessions ==> SessionOk(x, st.sessions[x]))
    && LockOwnersExist(st.sessions, st.locks)
  }

  predicate ErrorIs<T>(s: Step<T>, code: TxCode) {
    s.result.Failure? && s.result.error.code == code
  }

  /** New branches may be attached only to an active session in status Begin. */
  predicate Registrable(g: GlobalSession) {
    g.active && g.status == Begin
  }

  /** The registration check: inactivity is reported before a wrong status. */
  function StatusCheck(g: GlobalSession): (r: Option<TxCode>)
    ensures r.None? <==> Registrable(g)
    ensures r == Some(GlobalTransactionNotActive) <==> !g.active
    ensures r == Some(GlobalTransactionStatusInvalid) <==> g.active && g.status != Begin
  {
    if !g.active then Some(GlobalTransactionNotActive)
    else if g.status != Begin then Some(GlobalTransactionStatusInvalid)
    else None
  }

  /** The branch session built from the global session and the request, as
      it stands once attached (status Registered). */
  function NewBranch(g: GlobalSession, req: RegisterRequest, id: int): BranchSession {
    BranchSession(id, g.xid, req.branchType, req.resourceId, req.clientId,
                  req.applicationData, req.lockKeys, Registered)
  }

  function OwnerOf(b: BranchSession): Owner {
    Owner(b.xid, b.branchId)
  }

  /** The lock hook run before a branch is attached. */
  function BranchLock(policy: LockPolicy, t: LockTable, b: BranchSession): (r: Result<LockTable, TxError>)
    ensures policy.NoRowLocks? ==> r == Success(t)
    ensures r.Failure? <==> policy.RowLocks? && Conflicts(t, b.xid, b.lockKeys)
    ensures r.Failure? ==> r.error == TxError(LockKeyConflict, b.xid, Some(b.branchId))
    ensures r.Success? && policy.RowLocks? ==> r.value == Acquire(t, OwnerOf(b), b.lockKeys).value
  {
    match policy
    case NoRowLocks => Success(t)
    case RowLocks =>
      match Acquire(t, OwnerOf(b), b.lockKeys)
      case None => Failure(TxError(LockKeyConflict, b.xid, Some(b.branchId)))
      case Some(t') => Success(t')
  }

  /** The compensating unlock hook. */
  function BranchUnlock(policy: LockPolicy, t: LockTable, b: BranchSession): (r: LockTable)
    ensures policy.NoRowLocks? ==> r == t
    ensures policy.RowLocks? ==> HoldsNothing(r, OwnerOf(b)) && r.Keys <= t.Keys
    ensures policy.RowLocks? ==> forall k :: k in t && t[k] != OwnerOf(b) ==> k in r && r[k] == t[k]
    ensures policy.RowLocks? ==> forall k :: k in t && t[k] == OwnerOf(b) ==> k !in r
    ensures policy.RowLocks? ==> r == Release(t, OwnerOf(b))
  {
    match policy
    case NoRowLocks => t
    case RowLocks => Release(t, OwnerOf(b))
  }

  /** The lock hook would deny the branch's rows. */
  predicate LockDenied(policy: LockPolicy, t: LockTable, g: GlobalSession, req: RegisterRequest) {
    policy.RowLocks? && Conflicts(t, g.xid, req.lockKeys)
  }

  /** The part of registration that runs once the session checks passed:
      register the root listener, lock, attach, and unlock again if the
      attach fails. */
  function LockAndAttach(st: Store, policy: LockPolicy, req: RegisterRequest, newId: int,
                         storage: StoreOutcome): (out: Step<int>)
    requires req.xid in st.sessions && Registrable(st.sessions[req.xid])
    ensures out.store.sessions.Keys == st.sessions.Keys
    ensures ErrorIs(out, LockKeyConflict) <==> LockDenied(policy, st.locks, st.sessions[req.xid], req)
    ensures ErrorIs(out, FailedToAddBranch) <==>
              !LockDenied(policy, st.locks, st.sessions[req.xid], req) && storage.StoreFailed?
    ensures ErrorIs(out, FailedStore) <==>
              !LockDenied(policy, st.locks, st.sessions[req.xid], req) && storage.StoreRejected?
    ensures out.result.Success? <==>
              !LockDenied(policy, st.locks, st.sessions[req.xid], req) && storage.Stored?
    ensures out.result.Failure? ==> out.result.error.code in {LockKeyConflict, FailedToAddBranch, FailedStore}
    ensures out.result.Failure? ==> out.store.sessions == st.sessions[req.xid := st.sessions[req.xid].(rootListener := true)]
    ensures ErrorIs(out, LockKeyConflict) ==> out.store.locks == st.locks
    // a stored branch, and one whose store rejection escapes uncompensated,
    // holds the rows the lock hook took
    ensures (out.result.Success? || ErrorIs(out, FailedStore)) ==>
              out.store.locks == (if policy.RowLocks?
                                  then Acquire(st.locks, Owner(st.sessions[req.xid].xid, newId), req.lockKeys).value
                                  else st.locks)
    ensures out.result.Success? ==>
              && out.result.value == newId
              && out.store.sessions == st.sessions[req.xid := st.sessions[req.xid].(
                   rootListener := true,
                   branches := st.sessions[req.xid].branches + [NewBranch(st.sessions[req.xid], req, newId)])]
  {
    var g := st.sessions[req.xid];
    var g1 := g.(rootListener := true);
    var st1 := st.(sessions := st.sessions[req.xid := g1]);
    var b := NewBranch(g1, req, newId);
    match BranchLock(policy, st.locks, b)
    case Failure(e) => Step(st1, Failure(e))
    case Success(locked) =>
      match storage
      case StoreFailed =>
        Step(st1.(locks := BranchUnlock(policy, locked, b)),
             Failure(TxError(FailedToAddBranch, g.xid, Some(newId))))
      case StoreRejected =>
        Step(st1.(locks := locked), Failure(TxError(FailedStore, g.xid, Some(newId))))
      case Stored =>
        Step(Store(st.sessions[req.xid := g1.(branches := g1.branches + [b])], locked),
             Success(b.branchId))
  }

  /** Registers a branch of global transaction `req.xid`. `newId` is the id
      the branch id generator hands out; `storage` says whether storing the
      new branch succeeds. Checks run in order: session exists, is active,
      is in Begin; then the lock hook; then the attach, whose failure is
      compensated by the unlock hook. */
  function BranchRegister(st: Store, policy: LockPolicy, req: RegisterRequest, newId: int,
                          storage: StoreOutcome): (out: Step<int>)
    ensures out.store.sessions.Keys == st.sessions.Keys
    ensures ErrorIs(out, GlobalTransactionNotExist) <==> req.xid !in st.sessions
    ensures ErrorIs(out, GlobalTransactionNotActive) <==>
              req.xid in st.sessions && !st.sessions[req.xid].active
    ensures ErrorIs(out, GlobalTransactionStatusInvalid) <==>
              req.xid in st.sessions && st.sessions[req.xid].active && st.sessions[req.xid].status != Begin
    ensures ErrorIs(out, LockKeyConflict) <==>
              req.xid in st.sessions && Registrable(st.sessions[req.xid])
              && LockDenied(policy, st.locks, st.sessions[req.xid], req)
    ensures ErrorIs(out, FailedToAddBranch) <==>
              req.xid in st.sessions && Registrable(st.sessions[req.xid])
              && !LockDenied(policy, st.locks, st.sessions[req.xid], req) && storage.StoreFailed?
    ensures ErrorIs(out, FailedStore) <==>
              req.xid in st.sessions && Registrable(st.sessions[req.xid])
              && !LockDenied(policy, st.locks, st.sessions[req.xid], req) && storage.StoreRejected?
    ensures out.result.Success? <==>
              req.xid in st.sessions && Registrable(st.sessions[req.xid])
              && !LockDenied(policy, st.locks, st.sessions[req.xid], req) && storage.Stored?
    // the three session checks reject before anything is touched
    ensures (ErrorIs(out, GlobalTransactionNotExist) || ErrorIs(out, GlobalTransactionNotActive)
             || ErrorIs(out, GlobalTransactionStatusInvalid)) ==> out.store == st
    // a failed registration attaches no branch, and a lock denial leaves the lock table alone
    ensures out.result.Failure? ==>
              forall x :: x in st.sessions ==> out.store.sessions[x].branches == st.sessions[x].branches
    ensures ErrorIs(out, LockKeyConflict) ==> out.store.locks == st.locks
    // whatever happens, only the session of `req.xid` can change, and only
    // by its listener flag and its branch list
    ensures forall x :: x in st.sessions && x != req.xid ==> out.store.sessions[x] == st.sessions[x]
    ensures req.xid in st.sessions ==>
              out.store.sessions[req.xid].(branches := st.sessions[req.xid].branches, rootListener := st.sessions[req.xid].rootListener)
              == st.sessions[req.xid]
    // on success the id returned is that of the one branch appended
    ensures out.result.Success? ==>
              && out.result.value == newId
              && out.store.sessions[req.xid].branches
                 == st.sessions[req.xid].branches + [NewBranch(st.sessions[req.xid], req, newId)]
              && out.store.sessions[req.xid].rootListener
    // a registered branch holds its rows: the lock table is the one the
    // lock hook produced (and so is it when a store rejection escapes)
    ensures (out.result.Success? || ErrorIs(out, FailedStore)) ==>
              out.store.locks == (if policy.RowLocks?
                                  then Acquire(st.locks, Owner(st.sessions[req.xid].xid, newId), req.lockKeys).value
                                  else st.locks)
  {
    if req.xid !in st.sessions then
      Step(st, Failure(TxError(GlobalTransactionNotExist, req.xid, None)))
    else
      var g := st.sessions[req.xid];
      match StatusCheck(g)
      case Some(code) => Step(st, Failure(TxError(code, g.xid, None)))
      case None => LockAndAttach(st, policy, req, newId, storage)
  }

  /** Records the status a participant reports for one of its branches.
      The branch type and application data of the report are not used. */
  function BranchReport(st: Store, req: ReportRequest): (out: Step<()>)
    ensures out.store.sessions.Keys == st.sessions.Keys && out.store.locks == st.locks
    ensures ErrorIs(out, GlobalTransactionNotExist) <==> req.xid !in st.sessions
    ensures ErrorIs(out, BranchTransactionNotExist) <==>
              req.xid in st.sessions && !HasBranch(st.sessions[req.xid].branches, req.branchId)
    ensures out.result.Success? <==>
              req.xid in st.sessions && HasBranch(st.sessions[req.xid].branches, req.branchId)
    ensures out.result.Failure? ==> out.store == st
    ensures forall x :: x in st.sessions && x != req.xid ==> out.store.sessions[x] == st.sessions[x]
    // the reported session changes only in its listener flag and branch list
    ensures req.xid in st.sessions ==>
              out.store.sessions[req.xid].(branches := st.sessions[req.xid].branches,
                                           rootListener := st.sessions[req.xid].rootListener)
              == st.sessions[req.xid]
    // on success only statuses of branches with the reported id may change,
    // and the branch the lookup finds now has the reported status
    ensures out.result.Success? ==>
              var bs := st.sessions[req.xid].branches;
              var bs' := out.store.sessions[req.xid].branches;
              && |bs'| == |bs|
              && (forall i :: 0 <= i < |bs| ==> bs'[i].(status := bs[i].status) == bs[i])
              && (forall i :: 0 <= i < |bs| && bs'[i].status != bs[i].status ==> bs[i].branchId == req.branchId)
              && FindBranch(bs, req.branchId).Some?
              && bs'[FindBranch(bs, req.branchId).value].status == req.status
              && (forall i :: 0 <= i < |bs| && i != FindBranch(bs, req.branchId).value ==> bs'[i] == bs[i])
  {
    if req.xid !in st.sessions then
      Step(st, Failure(TxError(GlobalTransactionNotExist, req.xid, None)))
    else
      var g := st.sessions[req.xid];
      match FindBranch(g.branches, req.branchId)
      case None => Step(st, Failure(TxError(BranchTransactionNotExist, req.xid, Some(req.branchId))))
      case Some(i) =>
        var b := g.branches[i];
        var g' := g.(rootListener := true, branches := g.branches[i := b.(status := req.status)]);
        Step(st.(sessions := st.sessions[req.xid := g']), Success(()))
  }

  /** No lock leaks: when attaching a branch fails after its rows were
      locked, the compensating unlock leaves the lock table as it was, as
      long as the new id is not already a branch of that session. */
  lemma FailedAttachLeaksNoLock(st: Store, policy: LockPolicy, req: RegisterRequest, newId: int)
    requires Valid(st)
    requires req.xid in st.sessions ==> !HasBranch(st.sessions[req.xid].branches, newId)
    ensures BranchRegister(st, policy, req, newId, StoreFailed).store.locks == st.locks
  {
    var out := BranchRegister(st, policy, req, newId, StoreFailed);
    if req.xid in st.sessions && Registrable(st.sessions[req.xid]) && policy.RowLocks? {
      var g := st.sessions[req.xid];
      var b := NewBranch(g.(rootListener := true), req, newId);
      if Acquire(st.locks, OwnerOf(b), b.lockKeys).Some? {
        forall k | k in st.locks
          ensures st.locks[k] != OwnerOf(b)
        {
          assert HasBranch(st.sessions[st.locks[k].xid].branches, st.locks[k].branchId);
        }
        ReleaseUndoesAcquire(st.locks, OwnerOf(b), b.lockKeys);
      }
    }
  }

  /** Replacing one session by a well-formed one that keeps every branch
      id of the old one keeps the store well formed. */
  lemma ReplaceSessionKeepsValid(st: Store, x: Xid, g': GlobalSession)
    requires Valid(st) && x in st.sessions
    requires SessionOk(x, g')
    requires forall id :: HasBranch(st.sessions[x].branches, id) ==> HasBranch(g'.branches, id)
    ensures Valid(st.(sessions := st.sessions[x := g']))
  {
    var s' := st.sessions[x := g'];
    forall k | k in st.locks
      ensures st.locks[k].xid in s' && HasBranch(s'[st.locks[k].xid].branches, st.locks[k].branchId)
    {
      assert st.locks[k].xid in st.sessions
             && HasBranch(st.sessions[st.locks[k].xid].branches, st.locks[k].branchId);
    }
  }

  /** Registration keeps the store well formed, given a fresh branch id. */
  lemma RegisterPreservesValid(st: Store, policy: LockPolicy, req: RegisterRequest, newId: int,
                               storage: StoreOutcome)
    requires Valid(st)
    requires req.xid in st.sessions ==> !HasBranch(st.sessions[req.xid].branches, newId)
    requires !storage.StoreRejected?
    ensures Valid(BranchRegister(st, policy, req, newId, storage).store)
  {
    var out := BranchRegister(st, policy, req, newId, storage);
    if req.xid in st.sessions && Registrable(st.sessions[req.xid]) {
      var g := st.sessions[req.xid];
      var g1 := g.(rootListener := true);
      var b := NewBranch(g1, req, newId);
      assert out.store.sessions[req.xid].branches == g.branches + [b] || out.store.sessions[req.xid] == g1;
      if out.result.Success? {
        var g2 := g1.(branches := g.branches + [b]);
        var bs := g2.branches;
        assert bs[|bs| - 1] == b;
        assert HasBranch(bs, newId);
        assert UniqueBranchIds(bs) by {
          forall i, j | 0 <= i < j < |bs|
            ensures bs[i].branchId != bs[j].branchId
          {
            if j == |bs| - 1 {
              assert bs[i] == g.branches[i];
            }
          }
        }
        assert forall id :: HasBranch(g.branches, id) ==> HasBranch(bs, id) by {
          forall id | HasBranch(g.branches, id) ensures HasBranch(bs, id) {
            var i :| 0 <= i < |g.branches| && g.branches[i].branchId == id;
            assert bs[i] == g.branches[i];
          }
        }
        ReplaceSessionKeepsValid(st, req.xid, g2);
        if policy.RowLocks? {
          var s' := st.sessions[req.xid := g2];
          forall k | k in out.store.locks
            ensures out.store.locks[k].xid in s'
            ensures HasBranch(s'[out.store.locks[k].xid].branches, out.store.locks[k].branchId)
          {
            if k !in st.locks {
              assert out.store.locks[k] == OwnerOf(b);
            }
          }
        }
      } else {
        ReplaceSessionKeepsValid(st, req.xid, g1);
        if policy.RowLocks? && ErrorIs(out, FailedToAddBranch) {
          FailedAttachLeaksNoLock(st, policy, req, newId);
        }
      }
    }
  }

  /** Reporting keeps the store well formed. */
  lemma ReportPreservesValid(st: Store, req: ReportRequest)
    requires Valid(st)
    ensures Valid(BranchReport(st, req).store)
  {
    var out := BranchReport(st, req);
    if out.result.Success? {
      var g' := out.store.sessions[req.xid];
      var bs := st.sessions[req.xid].branches;
      assert forall i :: 0 <= i < |bs| ==> g'.branches[i].branchId == bs[i].branchId && g'.branches[i].xid == bs[i].xid;
      assert forall id :: HasBranch(bs, id) ==> HasBranch(g'.branches, id) by {
        forall id | HasBranch(bs, id) ensures HasBranch(g'.branches, id) {
          var i :| 0 <= i < |bs| && bs[i].branchId == id;
          assert g'.branches[i].branchId == id;
        }
      }
      ReplaceSessionKeepsValid(st, req.xid, g');
    }
  }

  /** A branch just registered can be reported on under the id returned. */
  lemma RegisteredBranchIsReportable(st: Store, policy: LockPolicy, req: RegisterRequest, newId: int,
                                     status: BranchStatus)
    requires BranchRegister(st, policy, req, newId, Stored).result.Success?
    requires !HasBranch(st.sessions[req.xid].branches, newId)
    ensures var out := BranchRegister(st, policy, req, newId, Stored);
            var rep := BranchReport(out.store, ReportRequest(req.branchType, req.xid, newId, status, None));
            var bs := rep.store.sessions[req.xid].branches;
            && rep.result.Success?
            && |bs| == |st.sessions[req.xid].branches| + 1
            && bs[|bs| - 1].branchId == newId
            && bs[|bs| - 1].status == status
  {
    var out := BranchRegister(st, policy, req, newId, Stored);
    var bs := out.store.sessions[req.xid].branches;
    var before := st.sessions[req.xid].branches;
    assert bs == before + [NewBranch(st.sessions[req.xid], req, newId)];
    assert bs[|bs| - 1].branchId == newId;
    assert forall j :: 0 <= j < |before| ==> bs[j] == before[j];
    assert FindBranch(bs, newId) == Some(|bs| - 1);
  }

  /** The lock leak the source leaves open: when storing the branch is
      rejected with a checked exception, the unlock hook never runs, so a
      row-locking coordinator keeps the new branch's fresh rows although no
      branch was attached. */
  lemma RejectedStoreLeaksLocks(st: Store, req: RegisterRequest, newId: int, k: RowKey)
    requires req.xid in st.sessions && Registrable(st.sessions[req.xid])
    requires !Conflicts(st.locks, st.sessions[req.xid].xid, req.lockKeys)
    requires k in req.lockKeys && k !in st.locks
    ensures var out := BranchRegister(st, RowLocks, req, newId, StoreRejected);
            && ErrorIs(out, FailedStore)
            && out.store.sessions[req.xid].branches == st.sessions[req.xid].branches
            && k in out.store.locks && out.store.locks[k] == Owner(st.sessions[req.xid].xid, newId)
            && out.store.locks != st.locks
  {
    var out := BranchRegister(st, RowLocks, req, newId, StoreRejected);
    assert k in out.store.locks;
  }

  /** Registering the first branch of a fresh transaction "T1" in status
      Begin returns the generated id, and T1's branch list is that branch. */
  lemma FirstBranchScenario(locks: LockTable)
    ensures
      var g := GlobalSession("T1", Begin, true, [], false);
      var st := Store(map["T1" := g], locks);
      var req := RegisterRequest(AT, "db1", "c1", "T1", None, {"db1:t1:1"});
      var out := BranchRegister(st, NoRowLocks, req, 1, Stored);
      out.result == Success(1) && |out.store.sessions["T1"].branches| == 1
      && out.store.sessions["T1"].branches[0].branchId == 1
  {
  }

  /** A transaction already committing rejects new branches with
      GlobalTransactionStatusInvalid, and a report for a branch id the
      transaction does not have fails with BranchTransactionNotExist. */
  lemma RejectionScenarios(locks: LockTable, b: BranchSession)
    requires b.branchId != 99
    ensures
      var st := Store(map["T1" := GlobalSession("T1", Committing, true, [], false)], locks);
      var req := RegisterRequest(AT, "db1", "c1", "T1", None, {"db1:t1:1"});
      ErrorIs(BranchRegister(st, RowLocks, req, 1, Stored), GlobalTransactionStatusInvalid)
    ensures
      var st := Store(map["T1" := GlobalSession("T1", Begin, true, [b], false)], locks);
      ErrorIs(BranchReport(st, ReportRequest(AT, "T1", 99, PhaseOneDone, None)), BranchTransactionNotExist)
  {
  }
}

=== FILE: dispatch.dfy ===
/** Phase-two dispatch: building the commit or rollback directive for one
    branch, sending it synchronously to the participant that owns the
    branch, and turning transport failures into typed errors. Also the base
    coordinator's default answers for the global-transaction extension
    points. */
module Dispatch {
  import opened Wrappers
  import opened Sessions

  datatype Phase = PhaseTwoCommit | PhaseTwoRollback

  /** A branch commit or rollback request. */
  datatype Directive = Directive(
    phase: Phase,
    xid: Xid,
    branchId: int,
    resourceId: string,
    applicationData: Option<string>,
    branchType: BranchType)

  /** What the synchronous send does: a reply carrying the branch status,
      an I/O failure, a timeout, or some other unchecked transport error
      (for example a channel that is not writable). */
  datatype SyncOutcome =
    | Replied(status: BranchStatus)
    | IOFailure
    | TimedOut
    | Unchecked(cause: string)

  /** How a dispatch fails: a typed transaction error, or an unchecked
      transport error that passes through unwrapped. */
  datatype DispatchFailure = Wrapped(error: TxError) | Raw(cause: string)

  /** A dispatch: the directive sent, the participant it was addressed to
      (resource id, client id), and its result. */
  datatype Dispatched = Dispatched(
    request: Directive,
    resourceId: string,
    clientId: string,
    result: Result<BranchStatus, DispatchFailure>)

  function SendFailureCode(phase: Phase): TxCode {
    match phase
    case PhaseTwoCommit => FailedToSendBranchCommitRequest
    case PhaseTwoRollback => FailedToSendBranchRollbackRequest
  }

  /** Shared body of branch commit and branch rollback. */
  function BranchDispatch(phase: Phase, b: BranchSession, outcome: SyncOutcome): (d: Dispatched)
    ensures d.request.phase == phase
    ensures d.request.xid == b.xid && d.request.branchId == b.branchId
    ensures d.request.resourceId == b.resourceId && d.request.applicationData == b.applicationData
    ensures d.request.branchType == b.branchType
    ensures d.resourceId == b.resourceId && d.clientId == b.clientId
    ensures d.result.Success? <==> outcome.Replied?
    ensures outcome.Replied? ==> d.result.value == outcome.status
    ensures (outcome.IOFailure? || outcome.TimedOut?) ==>
              d.result == Failure(Wrapped(TxError(SendFailureCode(phase), b.xid, Some(b.branchId))))
    ensures d.result.Failure? && d.result.error.Raw? <==> outcome.Unchecked?
    // an unchecked error is not caught: the caller sees that very error
    ensures outcome.Unchecked? ==> d.result == Failure(Raw(outcome.cause))
  {
    var request := Directive(phase, b.xid, b.branchId, b.resourceId, b.applicationData, b.branchType);
    var result :=
      match outcome
      case Replied(status) => Success(status)
      case IOFailure => Failure(Wrapped(TxError(SendFailureCode(phase), b.xid, Some(b.branchId))))
      case TimedOut => Failure(Wrapped(TxError(SendFailureCode(phase), b.xid, Some(b.branchId))))
      case Unchecked(cause) => Failure(Raw(cause));
    Dispatched(request, b.resourceId, b.clientId, result)
  }

  /** Sends a branch commit request; the global session is not consulted. */
  function BranchCommit(g: GlobalSession, b: BranchSession, outcome: SyncOutcome): (d: Dispatched)
    ensures d.request == Directive(PhaseTwoCommit, b.xid, b.branchId, b.resourceId, b.applicationData, b.branchType)
    ensures outcome.Replied? ==> d.result == Success(outcome.status)
    ensures (outcome.IOFailure? || outcome.TimedOut?) ==>
              d.result == Failure(Wrapped(TxError(FailedToSendBranchCommitRequest, b.xid, Some(b.branchId))))
  {
    BranchDispatch(PhaseTwoCommit, b, outcome)
  }

  /** Sends a branch rollback request; the global session is not consulted. */
  function BranchRollback(g: GlobalSession, b: BranchSession, outcome: SyncOutcome): (d: Dispatched)
    ensures d.request == Directive(PhaseTwoRollback, b.xid, b.branchId, b.resourceId, b.applicationData, b.branchType)
    ensures outcome.Replied? ==> d.result == Success(outcome.status)
    ensures (outcome.IOFailure? || outcome.TimedOut?) ==>
              d.result == Failure(Wrapped(TxError(FailedToSendBranchRollbackRequest, b.xid, Some(b.branchId))))
  {
    BranchDispatch(PhaseTwoRollback, b, outcome)
  }

  /** An I/O failure or timeout never escapes as a raw transport error:
      commit and rollback both surface it as their own typed send failure,
      and the two agree on which transaction and branch it concerns. */
  lemma TransportFailuresAreTyped(g: GlobalSession, b: BranchSession, outcome: SyncOutcome)
    requires outcome.IOFailure? || outcome.TimedOut?
    ensures BranchCommit(g, b, outcome).result.Failure?
    ensures BranchCommit(g, b, outcome).result.error.Wrapped?
    ensures BranchCommit(g, b, outcome).result.error.error.code == FailedToSendBranchCommitRequest
    ensures BranchRollback(g, b, outcome).result.Failure?
    ensures BranchRollback(g, b, outcome).result.error.Wrapped?
    ensures BranchRollback(g, b, outcome).result.error.error.code == FailedToSendBranchRollbackRequest
    ensures BranchCommit(g, b, outcome).result.error.error.(code := FailedToSendBranchRollbackRequest)
            == BranchRollback(g, b, outcome).result.error.error
  {
  }

  /** Commit and rollback are symmetric: same addressee, directives that
      differ only in their phase, and the same status on a reply. */
  lemma CommitRollbackSymmetric(g: GlobalSession, b: BranchSession, outcome: SyncOutcome)
    ensures BranchCommit(g, b, outcome).request.(phase := PhaseTwoRollback)
            == BranchRollback(g, b, outcome).request
    ensures BranchCommit(g, b, outcome).resourceId == BranchRollback(g, b, outcome).resourceId
    ensures BranchCommit(g, b, outcome).clientId == BranchRollback(g, b, outcome).clientId
    ensures BranchCommit(g, b, outcome).result.Success? <==> BranchRollback(g, b, outcome).result.Success?
    ensures outcome.Replied? ==>
              BranchCommit(g, b, outcome).result == BranchRollback(g, b, outcome).result
  {
  }

  /** Default lock query: always grants. */
  function LockQuery(branchType: BranchType, resourceId: string, xid: Xid, lockKeys: string): bool {
    true
  }

  /** Default global commit: reports the transaction resolved. */
  function DoGlobalCommit(g: GlobalSession, retrying: bool): bool {
    true
  }

  /** Default global rollback: reports the transaction resolved. */
  function DoGlobalRollback(g: GlobalSession, retrying: bool): bool {
    true
  }

  /** The base coordinator grants every lock query. */
  lemma LockQueryGrants(branchType: BranchType, resourceId: string, xid: Xid, lockKeys: string)
    ensures LockQuery(branchType, resourceId, xid, lockKeys)
  {
  }

  /** The base coordinator's global commit and rollback report "resolved",
      whether or not this is a retry. */
  lemma GlobalDefaultsResolve(g: GlobalSession, retrying: bool)
    ensures DoGlobalCommit(g, retrying) && DoGlobalCommit(g, retrying) == DoGlobalCommit(g, !retrying)
    ensures DoGlobalRollback(g, retrying) && DoGlobalRollback(g, retrying) == DoGlobalRollback(g, !retrying)
  {
  }
}

=== FILE: locks.dfy ===
/** An abstract row-lock table: each locked row is owned by exactly one
    branch of one global transaction. */
module Locks {
  import opened Wrappers
  import opened Sessions

  /** The branch holding a row lock. */
  datatype Owner = Owner(xid: Xid, branchId: int)

  /** Row key to owner; a map, so a key has at most one owner at a time. */
  type LockTable = map<RowKey, Owner>

  /** Some requested row is already held by a different global transaction. */
  predicate Conflicts(t: LockTable, xid: Xid, keys: set<RowKey>) {
    exists k :: k in keys && k in t && t[k].xid != xid
  }

  /** Tries to take every row in `keys` for `owner`, all or nothing. A row
      already held by the same global transaction stays with its holder. */
  function Acquire(t: LockTable, owner: Owner, keys: set<RowKey>): (r: Option<LockTable>)
    ensures r.None? <==> Conflicts(t, owner.xid, keys)
    ensures r.Some? ==> r.value.Keys == t.Keys + keys
    ensures r.Some? ==> forall k :: k in t ==> r.value[k] == t[k]
    ensures r.Some? ==> forall k :: k in keys ==> r.value[k].xid == owner.xid
    ensures r.Some? ==> forall k :: k in r.value && k !in t ==> r.value[k] == owner
  {
    if Conflicts(t, owner.xid, keys) then None
    else Some(map k | k in t.Keys + keys :: if k in t then t[k] else owner)
  }

  /** Drops every row held by `owner`; releasing rows not held is harmless. */
  function Release(t: LockTable, owner: Owner): (r: LockTable)
    ensures forall k :: k in r ==> r[k] != owner
    ensures forall k :: k in t && t[k] == owner ==> k !in r
    ensures forall k :: k in t && t[k] != owner ==> k in r && r[k] == t[k]
    ensures r.Keys <= t.Keys
  {
    map k | k in t && t[k] != owner :: t[k]
  }

  predicate HoldsNothing(t: LockTable, owner: Owner) {
    forall k :: k in t ==> t[k] != owner
  }

  /** Releasing twice is the same as releasing once. */
  lemma ReleaseIdempotent(t: LockTable, owner: Owner)
    ensures Release(Release(t, owner), owner) == Release(t, owner)
  {
  }

  /** Compensation: releasing an owner that held nothing before a successful
      acquire gives back exactly the table before the acquire. */
  lemma ReleaseUndoesAcquire(t: LockTable, owner: Owner, keys: set<RowKey>)
    requires HoldsNothing(t, owner)
    requires Acquire(t, owner, keys).Some?
    ensures Release(Acquire(t, owner, keys).value, owner) == t
  {
    var t2 := Acquire(t, owner, keys).value;
    var r := Release(t2, owner);
    forall k | k in t
      ensures k in r && r[k] == t[k]
    {
      assert t2[k] == t[k];
    }
    assert r.Keys == t.Keys;
  }
}

=== FILE: resource_keys.dfy ===
/** The resource manager's merged resource key: the ids of all managed
    resources joined with a fixed separator, or nothing when none are
    managed. */
module ResourceKeys {
  import opened Wrappers

  /** The separator between resource ids in a merged key. */
  const DbKeysSplitChar: char := ','

  /** The ids joined with the separator, none before the first id or after
      the last. */
  function Join(ids: seq<string>): string {
    if |ids| == 0 then ""
    else if |ids| == 1 then ids[0]
    else ids[0] + [DbKeysSplitChar] + Join(ids[1..])
  }

  /** The merged resource key of the managed ids in iteration order. */
  function Merged(ids: seq<string>): Option<string> {
    if |ids| == 0 then None else Some(Join(ids))
  }

  /** Position of the first occurrence of `c` in `s`. */
  function IndexOf(s: string, c: char): (i: nat)
    requires c in s
    ensures i < |s| && s[i] == c
    ensures forall j :: 0 <= j < i ==> s[j] != c
  {
    if s[0] == c then 0
    else
      assert c in s[1..] by { var j :| 0 <= j < |s| && s[j] == c; assert s[1..][j - 1] == c; }
      1 + IndexOf(s[1..], c)
  }

  /** Cuts a merged key back into its ids at every separator. */
  function Split(s: string): (parts: seq<string>)
    ensures |parts| > 0
    decreases |s|
  {
    if DbKeysSplitChar !in s then [s]
    else
      var i := IndexOf(s, DbKeysSplitChar);
      [s[..i]] + Split(s[i + 1..])
  }

  predicate NoSeparator(ids: seq<string>) {
    forall i :: 0 <= i < |ids| ==> DbKeysSplitChar !in ids[i]
  }

  /** Builds the merged key the way the resource manager client does: an
      empty key set gives nothing, otherwise ids are appended in iteration
      order with a separator before every id but the first. */
  method MergedResourceKeys(ids: seq<string>) returns (r: Option<string>)
    ensures r.None? <==> |ids| == 0
    ensures r.Some? ==> r.value == Join(ids)
    ensures r == Merged(ids)
  {
    if |ids| == 0 {
      return None;
    }
    var sb: string := "";
    var first := true;
    var n := 0;
    while n < |ids|
      invariant 0 <= n <= |ids|
      invariant first <==> n == 0
      invariant sb == Join(ids[..n])
    {
      if first {
        first := false;
      } else {
        sb := sb + [DbKeysSplitChar];
      }
      JoinSnoc(ids[..n], ids[n]);
      assert ids[..n + 1] == ids[..n] + [ids[n]];
      sb := sb + ids[n];
      n := n + 1;
    }
    assert ids[..n] == ids;
    return Some(sb);
  }

  /** Appending one id extends the join by a separator and that id. */
  lemma {:induction false} JoinSnoc(ids: seq<string>, id: string)
    ensures |ids| == 0 ==> Join(ids + [id]) == id
    ensures |ids| > 0 ==> Join(ids + [id]) == Join(ids) + [DbKeysSplitChar] + id
    decreases |ids|
  {
    if |ids| == 0 {
      assert ids + [id] == [id];
    } else if |ids| == 1 {
      assert ids + [id] == [ids[0], id];
      assert (ids + [id])[1..] == [id];
    } else {
      assert (ids + [id])[1..] == ids[1..] + [id];
      JoinSnoc(ids[1..], id);
    }
  }

  /** Splitting the merged key of separator-free ids gives the ids back. */
  lemma {:induction false} SplitJoin(ids: seq<string>)
    requires |ids| > 0
    requires NoSeparator(ids)
    ensures Split(Join(ids)) == ids
    decreases |ids|
  {
    if |ids| > 1 {
      var a := ids[0];
      var s := Join(ids);
      assert s == a + [DbKeysSplitChar] + Join(ids[1..]);
      assert s[|a|] == DbKeysSplitChar;
      assert s[..|a|] == a;
      var i := IndexOf(s, DbKeysSplitChar);
      assert i == |a|;
      assert s[i + 1..] == Join(ids[1..]);
      assert NoSeparator(ids[1..]) by {
        forall j | 0 <= j < |ids[1..]| ensures DbKeysSplitChar !in ids[1..][j] {
          assert ids[1..][j] == ids[j + 1];
        }
      }
      SplitJoin(ids[1..]);
      assert ids == [a] + ids[1..];
    }
  }

  /** Joining the pieces of a split gives the original string back. */
  lemma {:induction false} JoinSplit(s: string)
    ensures Join(Split(s)) == s
    decreases |s|
  {
    if DbKeysSplitChar in s {
      var i := IndexOf(s, DbKeysSplitChar);
      var rest := Split(s[i + 1..]);
      var parts := Split(s);
      assert parts == [s[..i]] + rest;
      assert parts[0] == s[..i] && parts[1..] == rest && |parts| > 1;
      assert Join(parts) == s[..i] + [DbKeysSplitChar] + Join(rest);
      JoinSplit(s[i + 1..]);
      assert s == s[..i] + [DbKeysSplitChar] + s[i + 1..];
    }
  }

  /** No ids means no key; otherwise the key starts with the first id and
      ends with the last, and a single id is its own key. */
  lemma MergedShape(ids: seq<string>)
    ensures Merged(ids).None? <==> |ids| == 0
    ensures |ids| == 1 ==> Merged(ids) == Some(ids[0])
    ensures |ids| > 0 ==> ids[0] <= Merged(ids).value
    ensures |ids| > 0 ==> var k := Merged(ids).value;
              |ids[|ids| - 1]| <= |k| && k[|k| - |ids[|ids| - 1]|..] == ids[|ids| - 1]
  {
    if |ids| > 0 {
      JoinPrefix(ids);
      JoinSuffix(ids);
    }
  }

  lemma {:induction false} JoinPrefix(ids: seq<string>)
    requires |ids| > 0
    ensures ids[0] <= Join(ids)
  {
  }

  lemma {:induction false} JoinSuffix(ids: seq<string>)
    requires |ids| > 0
    ensures var last := ids[|ids| - 1]; var k := Join(ids);
            |last| <= |k| && k[|k| - |last|..] == last
    decreases |ids|
  {
    if |ids| > 1 {
      JoinSuffix(ids[1..]);
      assert ids[1..][|ids[1..]| - 1] == ids[|ids| - 1];
    }
  }

  /** The merged key of two resources "db1" and "db2". */
  lemma TwoResourcesScenario()
    ensures Merged(["db1", "db2"]) == Some("db1,db2")
  {
    var ids := ["db1", "db2"];
    assert ids[1..] == ["db2"];
    assert Join(ids) == "db1" + [','] + "db2";
    assert "db1" + [','] + "db2" == "db1,db2" by {
      var j := "db1" + [','] + "db2";
      assert |j| == 7;
      assert forall k :: 0 <= k < 7 ==> j[k] == "db1,db2"[k];
    }
  }
}

=== FILE: rm_agent.dfy ===
/** The resource manager's registration agent: it announces the locally
    managed resources to every connected coordinator server and keeps that
    announcement current as resources and connections change. Transport
    sends are recorded as emitted messages; their outcomes are parameters. */
module RmAgent {
  import opened Wrappers
  import opened ResourceKeys

  /** A connection to a coordinator server. */
  datatype Channel = Channel(id: nat)

  /** A resource manager registration request. */
  datatype RegisterRMRequest = RegisterRMRequest(
    applicationId: string,
    transactionServiceGroup: string,
    resourceIds: Option<string>)

  /** The key the connection pool uses to open and register a channel. */
  datatype TransactionRole = TMRole | RMRole
  datatype PoolKey = PoolKey(role: TransactionRole, serverAddress: string, message: RegisterRMRequest)

  /** The agent: its identity, the registry of connected channels by server
      address, and its initialized flag. */
  datatype RmClient = RmClient(
    applicationId: string,
    transactionServiceGroup: string,
    channels: map<string, Channel>,
    initialized: bool)

  /** A reference to an agent object. */
  type Ref = nat

  /** The agent objects constructed so far and the process-wide slot, which
      refers to one of them or to none. The slot and every caller that got
      an agent from it share the same object, so an update through one
      reference is seen through the slot. */
  datatype Agents = Agents(objects: seq<RmClient>, instance: Option<Ref>)

  /** The slot, if set, refers to a constructed object. */
  predicate SlotOk(a: Agents) {
    a.instance.Some? ==> a.instance.value < |a.objects|
  }

  /** What a fire-and-forget send does. */
  datatype AsyncOutcome = Written | ChannelIsNotWritable | OtherFrameworkError | TimedOut

  /** One registration message handed to the transport. */
  datatype Send = Send(serverAddress: Option<string>, channel: Channel, request: RegisterRMRequest)

  /** The agent after a call and the registration messages it emitted. */
  datatype Sent = Sent(client: RmClient, sends: seq<Send>)

  /** The agent returned for an application and service group: the object
      in the slot, or a newly constructed one with no channels and not
      initialized, which the slot then holds; either way that object takes
      the given application id and service group. */
  function GetInstance(a: Agents, applicationId: string, group: string): (r: (Agents, Ref))
    requires SlotOk(a)
    ensures SlotOk(r.0) && r.0.instance == Some(r.1) && r.1 < |r.0.objects|
    ensures r.0.objects[r.1].applicationId == applicationId
    ensures r.0.objects[r.1].transactionServiceGroup == group
    ensures a.instance.Some? ==>
              && r.1 == a.instance.value
              && r.0.objects == a.objects[r.1 := a.objects[r.1].(applicationId := applicationId,
                                                                 transactionServiceGroup := group)]
    ensures a.instance.None? ==>
              && r.1 == |a.objects|
              && r.0.objects == a.objects + [RmClient(applicationId, group, map[], false)]
  {
    match a.instance
    case Some(ref) =>
      var c := a.objects[ref].(applicationId := applicationId, transactionServiceGroup := group);
      (a.(objects := a.objects[ref := c]), ref)
    case None =>
      var ref := |a.objects|;
      (Agents(a.objects + [RmClient(applicationId, group, map[], false)], Some(ref)), ref)
  }

  /** Initialization of the object `ref`, guarded by its flag: the second
      component says whether the underlying setup ran. */
  function Init(a: Agents, ref: Ref): (r: (Agents, bool))
    requires ref < |a.objects|
    ensures r.1 <==> !a.objects[ref].initialized
    ensures r.0.instance == a.instance && |r.0.objects| == |a.objects|
    ensures r.0.objects[ref] == a.objects[ref].(initialized := true)
    ensures forall o :: 0 <= o < |a.objects| && o != ref ==> r.0.objects[o] == a.objects[o]
  {
    var c := a.objects[ref];
    if !c.initialized then (a.(objects := a.objects[ref := c.(initialized := true)]), true)
    else (a, false)
  }

  /** Tear-down of the object `ref`: its flag is cleared and the
      process-wide slot emptied. */
  function Destroy(a: Agents, ref: Ref): (r: Agents)
    requires ref < |a.objects|
    ensures r.instance.None? && |r.objects| == |a.objects|
    ensures r.objects[ref] == a.objects[ref].(initialized := false)
    ensures forall o :: 0 <= o < |a.objects| && o != ref ==> r.objects[o] == a.objects[o]
  {
    Agents(a.objects[ref := a.objects[ref].(initialized := false)], None)
  }

  /** Initializing the same object twice sets up only once. */
  lemma InitIsIdempotent(a: Agents, ref: Ref)
    requires ref < |a.objects|
    ensures var (a1, _) := Init(a, ref);
            Init(a1, ref) == (a1, false)
  {
  }

  /** Setup runs once per instance: getInstance then init twice over sets up
      only the first time, since the second getInstance returns the object
      the first init already initialized; with destroy in between, the next
      getInstance constructs a new object and its init sets up again. */
  lemma InitDestroyCycle(a: Agents, applicationId: string, group: string)
    requires SlotOk(a)
    ensures var (a1, ref1) := GetInstance(a, applicationId, group);
            var (a2, _) := Init(a1, ref1);
            var (a3, ref3) := GetInstance(a2, applicationId, group);
            ref3 == ref1 && !Init(a3, ref3).1
    ensures var (a1, ref1) := GetInstance(a, applicationId, group);
            var (a2, _) := Init(a1, ref1);
            var a3 := Destroy(a2, ref1);
            var (a4, ref4) := GetInstance(a3, applicationId, group);
            ref4 != ref1 && Init(a4, ref4).1
  {
  }

  /** How the channel manager releases a dead channel: the server address
      loses its entry when that entry is this channel. */
  function ReleaseChannel(channels: map<string, Channel>, channel: Channel, serverAddress: string)
    : (r: map<string, Channel>)
    ensures r.Keys <= channels.Keys
    ensures forall a :: a in r ==> r[a] == channels[a]
    ensures serverAddress !in r <==> serverAddress !in channels || channels[serverAddress] == channel
    ensures forall a :: a in channels && a != serverAddress ==> a in r
  {
    if serverAddress in channels && channels[serverAddress] == channel then channels - {serverAddress}
    else channels
  }

  /** Sends one registration carrying `resourceId` on `channel`, evicting the
      channel only when the transport says it is not writable and the
      server address is known. */
  function SendRegisterMessage(c: RmClient, serverAddress: Option<string>, channel: Channel,
                               resourceId: Option<string>, outcome: AsyncOutcome): (r: Sent)
    ensures r.sends == [Send(serverAddress, channel,
                             RegisterRMRequest(c.applicationId, c.transactionServiceGroup, resourceId))]
    ensures r.client == c.(channels := r.client.channels)
    ensures !(outcome.ChannelIsNotWritable? && serverAddress.Some?) ==> r.client.channels == c.channels
    ensures outcome.ChannelIsNotWritable? && serverAddress.Some? ==>
              r.client.channels == ReleaseChannel(c.channels, channel, serverAddress.value)
  {
    var message := RegisterRMRequest(c.applicationId, c.transactionServiceGroup, resourceId);
    var channels :=
      if outcome.ChannelIsNotWritable? && serverAddress.Some? then
        ReleaseChannel(c.channels, channel, serverAddress.value)
      else c.channels;
    Sent(c.(channels := channels), [Send(serverAddress, channel, message)])
  }

  /** The pool key for a server: its registration request carries the
      current merged resource key. */
  function PoolKeyFor(c: RmClient, ids: seq<string>, serverAddress: string): (k: PoolKey)
    ensures k.role == RMRole && k.serverAddress == serverAddress
    ensures k.message.applicationId == c.applicationId
    ensures k.message.transactionServiceGroup == c.transactionServiceGroup
    ensures k.message.resourceIds.None? <==> |ids| == 0
    ensures |ids| > 0 ==> k.message.resourceIds == Some(Join(ids))
  {
    PoolKey(RMRole, serverAddress,
            RegisterRMRequest(c.applicationId, c.transactionServiceGroup, Merged(ids)))
  }

  /** A successful registration handshake: the channel is recorded for its
      server, and when the request that registered it carried resource ids
      that are no longer the current merged key, one fresh registration
      with the current key goes out on it. `ids` are the currently managed
      resource ids in iteration order. */
  function OnRegisterMsgSuccess(c: RmClient, ids: seq<string>, serverAddress: string, channel: Channel,
                                original: RegisterRMRequest, outcome: AsyncOutcome): (r: Sent)
    ensures |r.sends| <= 1
    ensures |r.sends| == 1 <==> original.resourceIds.Some? && original.resourceIds != Merged(ids)
    ensures |r.sends| == 1 ==>
              r.sends[0] == Send(Some(serverAddress), channel,
                                 RegisterRMRequest(c.applicationId, c.transactionServiceGroup, Merged(ids)))
    ensures r.client == c.(channels := r.client.channels)
    // the channel stays recorded unless the re-registration found it unwritable
    ensures !(|r.sends| == 1 && outcome.ChannelIsNotWritable?) ==>
              r.client.channels == c.channels[serverAddress := channel]
    ensures |r.sends| == 1 && outcome.ChannelIsNotWritable? ==>
              r.client.channels == c.channels - {serverAddress}
  {
    var c1 := c.(channels := c.channels[serverAddress := channel]);
    var dbKey := Merged(ids);
    if original.resourceIds.Some? && original.resourceIds != dbKey then
      SendRegisterMessage(c1, Some(serverAddress), channel, dbKey, outcome)
    else
      Sent(c1, [])
  }

  /** Why the registration handshake failed. */
  datatype AgentError = RegisterRMFailed(serverAddress: string, channel: Channel)

  /** A rejected registration handshake is fatal for that connection
      attempt; the channel is not recorded. */
  function OnRegisterMsgFail(c: RmClient, serverAddress: string, channel: Channel): (r: Result<RmClient, AgentError>)
    ensures r.Failure? && r.error.channel == channel
  {
    Failure(RegisterRMFailed(serverAddress, channel))
  }

  /** The registry left after sending to every channel: those whose send
      found them not writable are gone. */
  function Survivors(channels: map<string, Channel>, outcomes: string -> AsyncOutcome): map<string, Channel> {
    map a | a in channels && !outcomes(a).ChannelIsNotWritable? :: channels[a]
  }

  /** `s` registers `resourceId` with a server of the registry, on that
      server's channel. */
  predicate RegistersOn(c: RmClient, resourceId: string, s: Send) {
    && s.serverAddress.Some?
    && s.serverAddress.value in c.channels
    && s.channel == c.channels[s.serverAddress.value]
    && s.request == RegisterRMRequest(c.applicationId, c.transactionServiceGroup, Some(resourceId))
  }

  /** Midway through a broadcast: the registry holds the channels still to
      be sent to, and those already sent to whose send did not find them
      unwritable. */
  ghost predicate RegistryAfter(all: map<string, Channel>, outcomes: string -> AsyncOutcome,
                                remaining: set<string>, channels: map<string, Channel>) {
    && channels.Keys <= all.Keys
    && (forall a :: a in channels ==> channels[a] == all[a])
    && (forall a :: a in all ==> (a in channels <==> a in remaining || !outcomes(a).ChannelIsNotWritable?))
  }

  /** Sending to one more server keeps the registry as described. */
  lemma RegistryStep(all: map<string, Channel>, outcomes: string -> AsyncOutcome, remaining: set<string>,
                     channels: map<string, Channel>, a: string, channels': map<string, Channel>)
    requires RegistryAfter(all, outcomes, remaining, channels) && a in remaining && remaining <= all.Keys
    requires channels' == (if outcomes(a).ChannelIsNotWritable? then ReleaseChannel(channels, all[a], a) else channels)
    ensures RegistryAfter(all, outcomes, remaining - {a}, channels')
  {
  }

  /** Announces a new resource: with no connected server, asks the channel
      manager to reconnect the service group and sends nothing; otherwise
      sends one registration carrying `resourceId` on every connected
      channel. `outcomes` gives each server's send outcome; the returned
      `reconnects` lists the service groups a reconnect was asked for. */
  method RegisterResource(c: RmClient, resourceGroupId: string, resourceId: string,
                          outcomes: string -> AsyncOutcome)
    returns (c': RmClient, sends: seq<Send>, reconnects: seq<string>)
    ensures |c.channels| == 0 ==> c' == c && sends == [] && reconnects == [c.transactionServiceGroup]
    ensures |c.channels| > 0 ==> reconnects == []
    ensures |sends| == |c.channels|
    ensures forall i :: 0 <= i < |sends| ==> RegistersOn(c, resourceId, sends[i])
    ensures forall i, j :: 0 <= i < j < |sends| ==> sends[i].serverAddress != sends[j].serverAddress
    ensures forall a :: a in c.channels ==> exists i :: 0 <= i < |sends| && sends[i].serverAddress == Some(a)
    ensures c' == c.(channels := Survivors(c.channels, outcomes))
  {
    if |c.channels| == 0 {
      assert c.channels == Survivors(c.channels, outcomes);
      return c, [], [c.transactionServiceGroup];
    }
    reconnects := [];
    sends := [];
    var channels := c.channels;
    var remaining := c.channels.Keys;
    while remaining != {}
      invariant remaining <= c.channels.Keys
      invariant |sends| + |remaining| == |c.channels|
      invariant forall i :: 0 <= i < |sends| ==>
                  RegistersOn(c, resourceId, sends[i]) && sends[i].serverAddress.value !in remaining
      invariant forall i, j :: 0 <= i < j < |sends| ==> sends[i].serverAddress != sends[j].serverAddress
      invariant forall a :: a in c.channels && a !in remaining ==>
                  exists i :: 0 <= i < |sends| && sends[i].serverAddress == Some(a)
      invariant RegistryAfter(c.channels, outcomes, remaining, channels)
      decreases |remaining|
    {
      var a :| a in remaining;
      var step := SendRegisterMessage(c.(channels := channels), Some(a), c.channels[a], Some(resourceId), outcomes(a));
      RegistryStep(c.channels, outcomes, remaining, channels, a, step.client.channels);
      channels := step.client.channels;
      ghost var before := sends;
      sends := sends + step.sends;
      remaining := remaining - {a};
      assert sends[|sends| - 1].serverAddress == Some(a);
      assert forall i :: 0 <= i < |before| ==> sends[i] == before[i];
    }
    assert channels == Survivors(c.channels, outcomes) by {
      assert channels.Keys == Survivors(c.channels, outcomes).Keys;
    }
    c' := c.(channels := channels);
  }

  /** A channel registered by a handshake built from the current resource
      ids needs no re-registration. */
  lemma FreshHandshakeSendsNothing(c: RmClient, ids: seq<string>, serverAddress: string, channel: Channel,
                                   outcome: AsyncOutcome)
    ensures OnRegisterMsgSuccess(c, ids, serverAddress, channel,
                                 PoolKeyFor(c, ids, serverAddress).message, outcome).sends == []
    ensures OnRegisterMsgSuccess(c, ids, serverAddress, channel,
                                 PoolKeyFor(c, ids, serverAddress).message, outcome).client.channels
            == c.channels[serverAddress := channel]
  {
  }

  /** Convergence: after resources change between building a handshake and
      its success, the one re-registration carries the new merged key. */
  lemma StaleHandshakeResends(c: RmClient, before: seq<string>, now: seq<string>, serverAddress: string,
                              channel: Channel, outcome: AsyncOutcome)
    requires |before| > 0
    requires Merged(before) != Merged(now)
    ensures var r := OnRegisterMsgSuccess(c, now, serverAddress, channel,
                                          PoolKeyFor(c, before, serverAddress).message, outcome);
            |r.sends| == 1 && r.sends[0].request.resourceIds == Merged(now)
  {
  }

  /** The handshake of a registration built with resources "db1" and
      completed after "db2" was added re-sends once with "db1,db2". */
  lemma AddedResourceScenario(c: RmClient, serverAddress: string, channel: Channel)
    ensures var r := OnRegisterMsgSuccess(c, ["db1", "db2"], serverAddress, channel,
                                          RegisterRMRequest(c.applicationId, c.transactionServiceGroup, Some("db1")),
                                          Written);
            |r.sends| == 1 && r.sends[0].request.resourceIds == Some("db1,db2")
  {
    TwoResourcesScenario();
  }
}

=== FILE: sessions.dfy ===
/** The coordinator's records of a distributed transaction: the global
    session, the branch sessions attached to it, and the typed error codes
    the coordinator raises. */
module Sessions {
  import opened Wrappers

  /** Global transaction id. */
  type Xid = string

  /** One logical row lock key (resource + table + primary key). */
  type RowKey = string

  datatype GlobalStatus =
    | Begin
    | Committing | CommitRetrying | Committed | CommitFailed
    | RollingBack | RollbackRetrying | Rollbacked | RollbackFailed
    | TimeoutRollingBack | TimeoutRollbacked
    | Finished

  datatype BranchStatus =
    | Unknown
    | Registered
    | PhaseOneDone | PhaseOneFailed | PhaseOneTimeout
    | PhaseTwoCommitted | PhaseTwoCommitFailedRetryable | PhaseTwoCommitFailedUnretryable
    | PhaseTwoRollbacked | PhaseTwoRollbackFailedRetryable | PhaseTwoRollbackFailedUnretryable

  datatype BranchType = AT | TCC | SAGA | XA

  /** The error codes this core raises (a subset of the framework's codes). */
  datatype TxCode =
    | GlobalTransactionNotExist
    | GlobalTransactionNotActive
    | GlobalTransactionStatusInvalid
    | BranchTransactionNotExist
    | FailedToAddBranch
    | FailedStore
    | LockKeyConflict
    | FailedToSendBranchCommitRequest
    | FailedToSendBranchRollbackRequest

  /** A typed transaction exception: its code and the transaction (and,
      where the exception message names one, the branch) it concerns. */
  datatype TxError = TxError(code: TxCode, xid: Xid, branchId: Option<int>)

  /** One participant's part of a global transaction. The lock key
      descriptor is kept already resolved into the rows it names. */
  datatype BranchSession = BranchSession(
    branchId: int,
    xid: Xid,
    branchType: BranchType,
    resourceId: string,
    clientId: string,
    applicationData: Option<string>,
    lockKeys: set<RowKey>,
    status: BranchStatus)

  /** One distributed transaction as the coordinator sees it. `rootListener`
      records whether the repository's root session manager is registered
      as a lifecycle listener of this session. */
  datatype GlobalSession = GlobalSession(
    xid: Xid,
    status: GlobalStatus,
    active: bool,
    branches: seq<BranchSession>,
    rootListener: bool)

  predicate HasBranch(bs: seq<BranchSession>, id: int) {
    exists i :: 0 <= i < |bs| && bs[i].branchId == id
  }

  ghost predicate UniqueBranchIds(bs: seq<BranchSession>) {
    forall i, j :: 0 <= i < j < |bs| ==> bs[i].branchId != bs[j].branchId
  }

  /** Looks a branch up by id, as `GlobalSession.getBranch` does: the first
      branch in attachment order carrying that id, or nothing. */
  function FindBranch(bs: seq<BranchSession>, id: int): (r: Option<nat>)
    ensures r.None? <==> !HasBranch(bs, id)
    ensures r.Some? ==> r.value < |bs| && bs[r.value].branchId == id
    ensures r.Some? ==> forall j :: 0 <= j < r.value ==> bs[j].branchId != id
  {
    if |bs| == 0 then None
    else if bs[0].branchId == id then Some(0)
    else
      match FindBranch(bs[1..], id)
      case None =>
        assert forall i :: 1 <= i < |bs| ==> bs[i] == bs[1..][i - 1];
        None
      case Some(i) => Some(i + 1)
  }
}

=== FILE: wrappers.dfy ===
/** Optional values and success-or-error results, standing in for Java's
    `null` and for thrown exceptions. */
module Wrappers {

  /** A value that may be absent (Java `null`). */
  datatype Option<+T> = None | Some(value: T)

  /** The outcome of an operation that either yields a value or raises an error. */
  datatype Result<+R, +E> = Success(value: R) | Failure(error: E)
}
